=== FILE: README.md ===
# pingtower: worker data layer and dashboard generator, in Dafny

pingtower monitors URLs with "workers". Each worker is a job that pings a URL at
a fixed period. This project models two parts of it.

**The Grafana app plugin's data layer**, written in TypeScript:
- `ApiClient` refuses to exist without a configured `apiUrl`. Its response
  interceptor turns HTTP 404 and 5xx failures into fixed messages. Its verbs
  return the response `data`.
- `WorkersAPI.get` builds `/workers?page=P&page_size=S`.
- `URLsAPI.create` posts a creation request to `/urls`.
- The React hooks `useWorkers` and `useUrls` hold the list of workers, the
  loading flag, the error message and the pagination cursor.

**The `grafana_gen` consumer**, written in Python. For every "worker created"
message it receives, it builds a three-panel Grafana dashboard of MongoDB
aggregation queries and posts it. It acknowledges the message only when
Grafana answers 200.

Everything is pure functions over immutable datatypes:
- A hook's React state is a `State` value. Each hook operation is a transition
  that receives, as explicit parameters:
  - the memoised API object, which is `None` when the client could not be
    constructed;
  - the reply the API call settled to.
- The HTTP transport becomes a `Transport` value: `Delivered(data)` or
  `Failed(error)`.
- JavaScript thrown values become a `Thrown` datatype:
  - `PlainError(message)` is `new Error(message)`.
  - `RequestError(message, status)` is an axios error, with the status of its
    response if there was one.
  - `NonError` is a thrown value that is not an `Error`.
- On the Python side:
  - Decoded JSON is a `Json` datatype, with dicts as ordered key/value lists.
  - The Grafana POST is a `PostOutcome`: `Responded(status)` or `PostRaised`.
  - A body that `json.loads` rejects is `None`.

Modules, one per file:
- `Wrappers`: `Option` and `Result`.
- `Models`: the plugin's records.
- `Decimal`: integer rendering and parsing.
- `Client`: `client.ts`.
- `WorkersApi`: `workers.ts`.
- `UrlsApi`: `urls.ts`.
- `UseWorkers` and `UseUrls`: the hooks.
- `PyJson`: Python's view of decoded JSON.
- `GrafanaGen`: `main.py`.

Four behaviours of the code that a reader might expect otherwise:
- `isConfigured` and the client constructor test the plain JavaScript
  truthiness of `apiUrl`. They do not trim it, so a URL made only of spaces
  counts as configured. `UseWorkers.IsConfigured` states this.
- The worker list has no request-id or last-request-wins guard. A reply that
  arrives late overwrites a newer one, and the first reply to arrive clears
  `loading` while another request is still pending. `UseWorkers.LastArrivalWins`
  states this.
- The fetch gate checks whether the memoised API object exists, not
  `isConfigured`. The two agree, and `IsConfigured` proves it.
- The hook keeps only `page`, `page_size` and `total` from a response's
  pagination.

## Model

| member | source | states |
|---|---|---|
| `Client.NewClient` | plugin/src/api/client.ts:11-24 | Construction fails exactly when `jsonData?.apiUrl` is absent or the empty string, with the "API URL is not configured" error. Otherwise the base URL is `apiUrl` verbatim, the timeout is 10000 ms and the content type is `application/json`. |
| `Client.CreateFromConfig` | plugin/src/api/client.ts:87-89 | Gives the constructor's result, and succeeds exactly when `apiUrl` is truthy. |
| `Client.RequestsUseConfiguration` | plugin/src/api/client.ts:18-24 | Every request a constructed client issues, whatever the verb, goes to the configured URL with the 10 s timeout and the JSON content type. |
| `Client.Intercept` | plugin/src/api/client.ts:46-58 | Status 404 becomes "API endpoint not found…". Status ≥ 500 becomes "Server error…". Any other failure, including one without a response, is rejected unchanged. |
| `Client.InterceptClassification` | plugin/src/api/client.ts:49-57 | The three outcomes are exhaustive. 404 is never reported as a server error. The not-found message replaces an error only when its status is 404, and the server-error message only when its status is ≥ 500. |
| `Client.InterceptIdempotent` | plugin/src/api/client.ts:49-57 | A rewritten error carries no status, so intercepting again leaves it unchanged. |
| `Client.ErrorText` | plugin/src/hooks/useWorkers.ts:53 | An `Error` contributes its own message; a thrown non-`Error` yields the caller's fallback. |
| `Client.Send` | plugin/src/api/client.ts:62-85 | A request carries the verb, path and body it was given, plus the client's base URL, timeout and content type. Delivered data is returned unchanged; a failure is rejected as the interceptor left it. |
| `Client.GetVerb` | plugin/src/api/client.ts:62-65 | A GET of the path with no body, to the client's base URL with its timeout and content type. It resolves to the response `data`, or rejects with the error the interceptor produced. |
| `Client.PostVerb` | plugin/src/api/client.ts:67-70 | A POST of the path with the given body, to the client's base URL with its timeout and content type. It resolves to the response `data`, or rejects with the error the interceptor produced. |
| `Client.PutVerb` | plugin/src/api/client.ts:72-75 | A PUT of the path with the given body, to the client's base URL with its timeout and content type. It resolves to the response `data`, or rejects with the error the interceptor produced. |
| `Client.DeleteVerb` | plugin/src/api/client.ts:77-80 | A DELETE of the path with no body, to the client's base URL with its timeout and content type. It resolves to the response `data`, or rejects with the error the interceptor produced. |
| `Client.PatchVerb` | plugin/src/api/client.ts:82-85 | A PATCH of the path with the given body, to the client's base URL with its timeout and content type. It resolves to the response `data`, or rejects with the error the interceptor produced. |
| `Decimal.NatToString` | plugin/src/api/workers.ts:12 | The rendering of a natural number has at least one character, starts with a digit, and starts with `0` only when the number is 0: the shortest form, as a template literal writes it. |
| `Decimal.NatToStringDigits` | plugin/src/api/workers.ts:12 | Every character of the rendering of a natural number is a digit. |
| `Decimal.IntToString` | plugin/src/api/workers.ts:12 | The rendering of `${model.page}` and `${model.page_size}`: never empty, and it starts with `-` exactly when the number is negative. With `ParseIntPrefixRoundTrip` and `ParseIntPrefixSound` it is the one spelling of each integer that the parser reads back. |
| `Decimal.NatToStringValue` | plugin/src/api/workers.ts:12 | The decimal rendering of a natural number, which a template literal produces, has that number as its value. |
| `Decimal.ParseIntPrefixRoundTrip` | plugin/src/api/workers.ts:12 | Reading an integer back from its rendering, negative or not, recovers the integer. It stops exactly where the rendering ends when the next character is not a digit. |
| `Decimal.CanonicalRendering` | plugin/src/api/workers.ts:12 | Every digit string without a leading zero (or `0` itself) is the rendering of its own value, so renderings and such strings correspond one to one. |
| `Decimal.ParseIntPrefixSound` | plugin/src/api/workers.ts:12 | The converse of the round trip: whatever the parser accepts is a rendering followed by the rest. Leading zeros, `-0` and `+` are refused. |
| `WorkersApi.QueryPath` | plugin/src/api/workers.ts:7-12 | The path starts with exactly `/workers`; its query text is fixed by `QueryPathRoundTrip` together with `ParseQueryPathSound`. |
| `WorkersApi.QueryPathRoundTrip` | plugin/src/api/workers.ts:12 | Parsing the built path recovers `page` and `page_size`, in that order, as given. Nothing is clamped, and negative values are included. |
| `WorkersApi.QueryPathInjective` | plugin/src/api/workers.ts:12 | Two distinct page requests never share a path. |
| `WorkersApi.ParseQueryPathSound` | plugin/src/api/workers.ts:12 | The only path that reads back to a request is the one built for it, `/workers?page=P&page_size=S` with both numbers in shortest decimal form: builder and parser are inverse bijections. |
| `WorkersApi.Get` | plugin/src/api/workers.ts:11-13 | A body-less GET to the client's base URL, whose path starts with `/workers` and reads back to the request; by `ParseQueryPathSound` that path is exactly `/workers?page=P&page_size=S`. The `Paged<Worker>` is returned as received. |
| `UrlsApi.Create` | plugin/src/api/urls.ts:6-12 | A POST to exactly `/urls`, with no query string and the model, unchanged, as body. The created worker is returned as received. |
| `UseWorkers.Initial` | plugin/src/hooks/useWorkers.ts:10-17 | On mount: no workers, not loading, no error, and page 1 of size 10 with a total of 0. |
| `UseWorkers.FirstPageAfterMount` | plugin/src/hooks/useWorkers.ts:10-17 | From the mount state (no workers, page 1 of 10, total 0), `refresh` requests page 1 of 10. A reply with two workers and total 2 shows exactly those two workers, with no error and loading off. |
| `UseWorkers.MakeApi` | plugin/src/hooks/useWorkers.ts:19-27 | The API object exists exactly when the client constructor succeeds, and it wraps that client. |
| `UseWorkers.IsConfigured` | plugin/src/hooks/useWorkers.ts:29-31 | True exactly when `apiUrl` is present and non-empty; a URL of spaces counts. This holds exactly when the API object exists. |
| `UseWorkers.Begin` | plugin/src/hooks/useWorkers.ts:40-41 | Before the request, loading is on and the error is cleared. Workers and pagination are kept. |
| `UseWorkers.Complete` | plugin/src/hooks/useWorkers.ts:46-58 | Success replaces the workers with `items` and the cursor with the response's page, page size and total. Failure sets the error to the message or the fallback and keeps workers and cursor. Loading ends off either way. |
| `UseWorkers.FetchWorkers` | plugin/src/hooks/useWorkers.ts:32-61 | Without an API object, no request is issued and only the error changes, to "Workers API is not configured". Otherwise the request is the given page and page size, each defaulting to the cursor's, and the success and failure effects follow. |
| `UseWorkers.GateDecidesRequest` | plugin/src/hooks/useWorkers.ts:34-37 | For any settings, a request is issued exactly when `isConfigured` holds. When it does not, only the error changes. |
| `UseWorkers.FetchUpdatesAtomically` | plugin/src/hooks/useWorkers.ts:46-54 | For a reply of the `Paged` shape, the worker list and the cursor change together from one response, or neither changes. |
| `UseWorkers.FetchRequestPath` | plugin/src/hooks/useWorkers.ts:43-44 | The path `WorkersAPI.get` receives reads back to the page and page size the hook asked for. |
| `UseWorkers.FailureMessages` | plugin/src/hooks/useWorkers.ts:52-54 | End to end: a 404 on the list leaves the not-found message, a 5xx the server-error message, another request failure its own message, and a non-`Error` "Failed to fetch workers". |
| `UseWorkers.LastArrivalWins` | plugin/src/hooks/useWorkers.ts:39-58 | With two fetches in flight, the first reply clears loading, and the reply that arrives last decides the list and the cursor. |
| `UseWorkers.ChangePage` | plugin/src/hooks/useWorkers.ts:63-68 | Requests page `n` at the current page size and is in every respect `fetchWorkers(n)`: without an API object there is no request and only the error changes. |
| `UseWorkers.ChangeLimit` | plugin/src/hooks/useWorkers.ts:70-75 | Requests page 1 at the new size, whatever the current page. On success the list and the cursor follow the reply and the error is cleared. On failure both are kept and the error is the message or "Failed to fetch workers". Loading ends off. Without an API object there is no request and only the error changes, to "Workers API is not configured". |
| `UseWorkers.Refresh` | plugin/src/hooks/useWorkers.ts:87 | Requests the current page at the current size, like `fetchWorkers()` with no arguments. |
| `UseWorkers.ClearError` | plugin/src/hooks/useWorkers.ts:86 | The error becomes null and nothing else changes. |
| `UseWorkers.ClearErrorIdempotent` | plugin/src/hooks/useWorkers.ts:86 | Clearing twice is clearing once, and a state without an error is left as it is. |
| `UseUrls.Initial` | plugin/src/hooks/useUrls.ts:9-10 | On mount: not loading and no error. |
| `UseUrls.MakeApi` | plugin/src/hooks/useUrls.ts:12-20 | The API object exists exactly when the client constructor succeeds. |
| `UseUrls.IsConfigured` | plugin/src/hooks/useUrls.ts:22-24 | True exactly when `apiUrl` is present and non-empty, and exactly when the API object exists. |
| `UseUrls.CreateUrl` | plugin/src/hooks/useUrls.ts:26-47 | Unconfigured, it throws "URLs API is not configured" without a request or a state change. Otherwise it posts the model and settles to the client's own result. The error is cleared on success and set to the message (or "Failed to create URL") on failure, and loading ends off. |
| `UseUrls.GateDecidesRequest` | plugin/src/hooks/useUrls.ts:28-30 | For any settings, the API is reached exactly when `isConfigured` holds. Otherwise the call fails with the configuration message and the state is untouched. |
| `UseUrls.CreatedWorkerIsReturned` | plugin/src/hooks/useUrls.ts:32-36 | End to end: the worker the server returns for `POST /urls` is what `createUrl` resolves to, the posted body is the model, and the state ends with no error and loading off. |
| `UseUrls.FailureIsRethrown` | plugin/src/hooks/useUrls.ts:37-44 | End to end: a failed POST is rethrown as the interceptor left it. The recorded message is the 404, 5xx or fallback text accordingly, and loading ends off. |
| `UseUrls.ExampleCreation` | plugin/src/hooks/useUrls.ts:32-36 | Creating `https://example.com` every hour, answered by worker `abc`, resolves to exactly that worker. |
| `UseUrls.ClearError` | plugin/src/hooks/useUrls.ts:54 | The error becomes null and loading is kept. |
| `UseUrls.ClearErrorIdempotent` | plugin/src/hooks/useUrls.ts:54 | Clearing twice is clearing once. |
| `PyJson.LookupReplace` | services/grafana_gen/main.py:58 | Overwriting an existing key changes what `get` sees for that key and for no other key. |
| `PyJson.Assign` | services/grafana_gen/main.py:58 | After `d[key] = value`, `get(key)` gives `value`, every other key reads as before, and no existing key moves or disappears. |
| `PyJson.PyStr` | services/grafana_gen/main.py:82-83 | Python's `str()` as the f-strings of the uid and title apply it: `None` for null, `True`/`False` for booleans, the decimal rendering for an int (which reads back to it, with `-` exactly when negative), a string unchanged, and the supplied text for a list or dict. |
| `GrafanaGen.MatchFields` | services/grafana_gen/main.py:45-58 | `$match` starts with `$expr`. `request_time` is never copied. `$expr` is the time window unless the filter overrides it. Every other filter key reads as in the filter. |
| `GrafanaGen.OptionalStages` | services/grafana_gen/main.py:61-66 | `$group`, `$project` and `$sort` each appear exactly when their argument is truthy, in that order, and nothing else appears. |
| `GrafanaGen.BetweenMatchAndLimit` | services/grafana_gen/main.py:59-68 | Placing ordered middle stages between `$match` and `$limit` keeps all stage kinds strictly ordered. |
| `GrafanaGen.AggregateQuery` | services/grafana_gen/main.py:70-77 | The query reads data source `mongodb`, database `ping_workers` and collection `ping_data`, as a table with ref id `A`. |
| `GrafanaGen.PipelineEnds` | services/grafana_gen/main.py:42-68 | The pipeline has two stages plus one per truthy optional argument. It starts with `$match` on the filter and ends with `$limit` of the given limit, or 100 when omitted. |
| `GrafanaGen.PipelineOrder` | services/grafana_gen/main.py:59-68 | The stages are in the order `$match`, `$group`, `$project`, `$sort`, `$limit`, whichever are present. |
| `GrafanaGen.PipelineStages` | services/grafana_gen/main.py:61-66 | `$group`, `$project` and `$sort` are present exactly when their arguments are truthy, and no other stage appears. |
| `GrafanaGen.UrlMatchFields` | services/grafana_gen/main.py:94-95 | The `{"url": {"$eq": url}}` filter gives a `$match` on that URL within the time window. |
| `GrafanaGen.UrlQueryReadsUrl` | services/grafana_gen/main.py:45-59 | Any query on the URL filter, whatever its other stages, starts by matching that URL within the time window. |
| `GrafanaGen.PanelsQueryTheUrl` | services/grafana_gen/main.py:88-206 | Each of the three panels reads only the worker's URL within the dashboard's time range. |
| `GrafanaGen.TimeSeriesQueriesShape` | services/grafana_gen/main.py:94-121 | The response-time and body-length panels have all five stages and a limit of 100. |
| `GrafanaGen.StatusQueryShape` | services/grafana_gen/main.py:135-140 | The status panel has no `$group`, four stages and a limit of 1. |
| `GrafanaGen.Panels` | services/grafana_gen/main.py:88-206 | Three panels with ids 1, 2 and 3: "Response Time (microseconds)" as a time series, "Status Code" as a stat, and "Body Length" as a time series. |
| `GrafanaGen.Title` | services/grafana_gen/main.py:83 | The title starts with `Worker Monitoring - `, and the rest is exactly `str(url)`. |
| `GrafanaGen.Uid` | services/grafana_gen/main.py:82 | The uid is `worker-` followed by the first `min(18, n)` characters of `str(worker_id)`, where `n` is its length. A missing id counts as `unknown`; a null one prints as `None`. |
| `GrafanaGen.CreateGrafanaDashboard` | services/grafana_gen/main.py:23-224 | A non-dict message, or a truthy payload that is not a dict, raises. A falsy payload or url returns False. A dashboard is posted exactly when the message is well formed, with the derived uid, the `Worker Monitoring - ` title and the three panels. The result is True exactly when Grafana answers 200. |
| `GrafanaGen.OnMessage` | services/grafana_gen/main.py:227-240 | An undecodable body, or one whose handling raises, is never acknowledged. An acknowledged message was always posted. |
| `GrafanaGen.AckIffCreated` | services/grafana_gen/main.py:218-240 | A message is acknowledged exactly when it decodes, is well formed, and Grafana answers 200 to the POST. |

## Left out

- The axios instance itself, URL joining of base URL and path, request config overrides and the request interceptor: the transport is the `Transport` parameter, and `baseUrl`/`path` are kept apart in `HttpRequest`.
- `console.log`, `console.error` and Python `print` logging: assumed not to raise, and then without effect on state or results. A `print` that raised inside `on_message`'s `try` (closed stdout, a character stdout cannot encode) would leave the message unacknowledged even after a 200; that case is not modelled.
- Promise scheduling and React memoisation and re-rendering: each hook call is one transition from the state at the call (which also supplies the default page and page size); interleavings are expressed by composing `Begin` and `Complete`.
- JavaScript numbers that are not integers (`NaN`, fractions, `Infinity`) in `page`/`page_size`: modelled as `int`. Integers of magnitude above 2^53 are outside the model: a template literal prints them as the shortest digits that identify the double, padded with zeros (`${2**64}` is `18446744073709552000`, not the exact `18446744073709551616`), and from 1e21 on in exponent form (`1e+21`).
- `WorkersApi.QueryPathRoundTrip`: holds of the modelled decimal rendering; the source has that rendering only for integers of magnitude at most 2^53 (larger ones print padded with zeros or in exponent form), and `WorkersApi.QueryPathInjective`, `WorkersApi.ParseQueryPathSound`, `Decimal.ParseIntPrefixRoundTrip` and `Decimal.ParseIntPrefixSound` carry the same bound.
- `UseWorkers.FetchUpdatesAtomically`: replies are assumed to have the `Paged` shape. A 2xx body without `pagination` (an empty body, for one) makes the hook set the list to `response.items` and then throw a TypeError while reading the pagination, so the list changes and the cursor does not; such replies are not modelled.
- Python floats in decoded JSON: `Json` numbers are integers.
- `str` of a list or dict (used for the uid and the title when such a value is given): its quoting rules are not modelled; the `containerStr` parameter supplies that text.
- `json.dumps` of the pipeline and the dashboard: the pipeline is a list of `Stage` values, not its text.
- Panel layout (`gridPos`), `fieldConfig`, thresholds, `timezone`, `schemaVersion`, `version`, `time` and `options` of the dashboard: static constants with no logic.
- The Grafana URL, API key and the HTTP headers of the POST, and the POST itself: replaced by the `PostOutcome` parameter.
- `main()`: the RabbitMQ connection, queue declaration and consumer loop; `on_message` is modelled with the acknowledgement as its result.
- `plugin/src/models/period.ts` is not part of this model: `Period` is an enumeration of `Minute`, `Hour`, `Day`, `Week` and `Month`, interpreted only by the backend.
- The pages and components that render and call the hooks (`ListPage`, `CreateWithURLPage`, `AppConfig` and the rest): presentation and routing only.
- `GrafanaGen.OnMessage`: its own contract gives only the never-ack cases and a necessary condition for acking; the full if-and-only-if is `GrafanaGen.AckIffCreated`.

=== FILE: client.dfy ===
/** `ApiClient` (plugin/src/api/client.ts): the configuration gate of its
    constructor, the response-error interceptor, and the HTTP verbs. The
    transport (axios) is replaced by an explicit outcome per request. */
module Client {
  import opened Wrappers
  import opened Models

  const MissingApiUrlMessage := "API URL is not configured. Please set it in plugin settings."
  const NotFoundMessage := "API endpoint not found. Please check your API URL."
  const ServerErrorMessage := "Server error. Please try again later."
  const RequestTimeoutMs := 10000
  const JsonContentType := "application/json"

  /** A JavaScript value thrown or used to reject a promise. */
  datatype Thrown =
    | PlainError(message: string)                      // `new Error(message)`
    | RequestError(message: string, status: Option<int>) // an axios error; `status` of `error.response`, if any
    | NonError                                         // a thrown value that is not an `Error` instance

  /** `error.response?.status` */
  function StatusOf(e: Thrown): Option<int> {
    if e.RequestError? then e.status else None
  }

  /** `err instanceof Error ? err.message : fallback`, as both hooks write it. */
  function ErrorText(e: Thrown, fallback: string): (text: string)
    ensures e.NonError? ==> text == fallback
    ensures !e.NonError? ==> text == e.message
  {
    match e
    case NonError => fallback
    case PlainError(m) => m
    case RequestError(m, _) => m
  }

  /** The configured axios instance: base URL, timeout and JSON header. */
  datatype ApiClient = ApiClient(baseUrl: string, timeoutMs: int, contentType: string)

  /** `new ApiClient(pluginMeta)`: refuses a missing or empty `apiUrl`,
      otherwise uses it verbatim as the base URL. */
  function NewClient(meta: PluginMeta): (r: Result<ApiClient, Thrown>)
    ensures r.Err? <==> ApiUrl(meta) == None || ApiUrl(meta) == Some("")
    ensures r.Err? ==> r.error == PlainError(MissingApiUrlMessage)
    ensures r.Ok? ==> r.value.baseUrl == ApiUrl(meta).value
    ensures r.Ok? ==> r.value.timeoutMs == 10000 && r.value.contentType == "application/json"
  {
    if !HasApiUrl(meta) then Err(PlainError(MissingApiUrlMessage))
    else Ok(ApiClient(ApiUrl(meta).value, RequestTimeoutMs, JsonContentType))
  }

  /** `ApiClient.createFromConfig`: the same gate and the same client. */
  function CreateFromConfig(meta: PluginMeta): (r: Result<ApiClient, Thrown>)
    ensures r == NewClient(meta)
    ensures r.Ok? <==> HasApiUrl(meta)
  {
    NewClient(meta)
  }

  /** The response-error interceptor: 404 and 5xx become fixed messages, any
      other failure is rejected unchanged. */
  function Intercept(e: Thrown): (r: Thrown)
    ensures StatusOf(e) == Some(404) ==> r == PlainError(NotFoundMessage)
    ensures StatusOf(e).Some? && StatusOf(e).value >= 500 ==> r == PlainError(ServerErrorMessage)
    ensures (StatusOf(e).None? || (StatusOf(e).value != 404 && StatusOf(e).value < 500)) ==> r == e
  {
    var status := StatusOf(e);
    if status == Some(404) then PlainError(NotFoundMessage)
    else if status.Some? && status.value >= 500 then PlainError(ServerErrorMessage)
    else e
  }

  /** The error the interceptor produces carries no response, so running the
      interceptor again changes nothing. */
  lemma InterceptIdempotent(e: Thrown)
    ensures Intercept(Intercept(e)) == Intercept(e)
    ensures Intercept(e) != e ==> StatusOf(Intercept(e)).None?
  {
  }

  /** The three outcomes of the interceptor are exhaustive, 404 is never
      reported as a server error, and each rewrite happens only for its own
      status. */
  lemma InterceptClassification(e: Thrown)
    ensures Intercept(e) == PlainError(NotFoundMessage) || Intercept(e) == PlainError(ServerErrorMessage) || Intercept(e) == e
    ensures StatusOf(e) == Some(404) ==> Intercept(e) != PlainError(ServerErrorMessage)
    ensures Intercept(e) == PlainError(NotFoundMessage) && e != Intercept(e) ==> StatusOf(e) == Some(404)
    ensures Intercept(e) == PlainError(ServerErrorMessage) && e != Intercept(e) ==> StatusOf(e).Some? && StatusOf(e).value >= 500
  {
  }

  datatype HttpMethod = Get | Post | Put | Delete | Patch

  /** What the client hands to the transport: method, base URL, relative path,
      optional JSON body, timeout and content type. */
  datatype HttpRequest<B> = HttpRequest(
    verb: HttpMethod, baseUrl: string, path: string, body: Option<B>, timeoutMs: int, contentType: string)

  /** What the transport did with a request: a 2xx response with its decoded
      `data`, or a rejection. */
  datatype Transport<T> = Delivered(data: T) | Failed(error: Thrown)

  /** One call of a verb: the request issued and what the promise settles to. */
  datatype Call<B, T> = Call(request: HttpRequest<B>, result: Result<T, Thrown>)

  /** Issues `verb path` on the client's instance and returns `response.data`,
      failures going through the response interceptor. */
  function Send<B, T>(c: ApiClient, verb: HttpMethod, path: string, body: Option<B>, t: Transport<T>): (call: Call<B, T>)
    ensures call.request.verb == verb && call.request.path == path && call.request.body == body
    ensures call.request.baseUrl == c.baseUrl
    ensures call.request.timeoutMs == c.timeoutMs && call.request.contentType == c.contentType
    ensures t.Delivered? ==> call.result == Ok(t.data)
    ensures t.Failed? ==> call.result == Err(Intercept(t.error))
  {
    var request := HttpRequest(verb, c.baseUrl, path, body, c.timeoutMs, c.contentType);
    match t
    case Delivered(data) => Call(request, Ok(data))
    case Failed(error) => Call(request, Err(Intercept(error)))
  }

  /** `get(url)`: a body-less GET whose result is the response data. */
  function GetVerb<T>(c: ApiClient, path: string, t: Transport<T>): (call: Call<(), T>)
    ensures call.request.verb == Get && call.request.path == path && call.request.body == None
    ensures call.request.baseUrl == c.baseUrl && call.request.timeoutMs == c.timeoutMs && call.request.contentType == c.contentType
    ensures t.Delivered? ==> call.result == Ok(t.data)
    ensures t.Failed? ==> call.result == Err(Intercept(t.error))
  {
    Send(c, Get, path, None, t)
  }

  /** `post(url, data)` */
  function PostVerb<B, T>(c: ApiClient, path: string, data: Option<B>, t: Transport<T>): (call: Call<B, T>)
    ensures call.request.verb == Post && call.request.path == path && call.request.body == data
    ensures call.request.baseUrl == c.baseUrl && call.request.timeoutMs == c.timeoutMs && call.request.contentType == c.contentType
    ensures t.Delivered? ==> call.result == Ok(t.data)
    ensures t.Failed? ==> call.result == Err(Intercept(t.error))
  {
    Send(c, Post, path, data, t)
  }

  /** `put(url, data)` */
  function PutVerb<B, T>(c: ApiClient, path: string, data: Option<B>, t: Transport<T>): (call: Call<B, T>)
    ensures call.request.verb == Put && call.request.path == path && call.request.body == data
    ensures call.request.baseUrl == c.baseUrl && call.request.timeoutMs == c.timeoutMs && call.request.contentType == c.contentType
    ensures t.Delivered? ==> call.result == Ok(t.data)
    ensures t.Failed? ==> call.result == Err(Intercept(t.error))
  {
    Send(c, Put, path, data, t)
  }

  /** `delete(url)` */
  function DeleteVerb<T>(c: ApiClient, path: string, t: Transport<T>): (call: Call<(), T>)
    ensures call.request.verb == Delete && call.request.path == path && call.request.body == None
    ensures call.request.baseUrl == c.baseUrl && call.request.timeoutMs == c.timeoutMs && call.request.contentType == c.contentType
    ensures t.Delivered? ==> call.result == Ok(t.data)
    ensures t.Failed? ==> call.result == Err(Intercept(t.error))
  {
    Send(c, Delete, path, None, t)
  }

  /** `patch(url, data)` */
  function PatchVerb<B, T>(c: ApiClient, path: string, data: Option<B>, t: Transport<T>): (call: Call<B, T>)
    ensures call.request.verb == Patch && call.request.path == path && call.request.body == data
    ensures call.request.baseUrl == c.baseUrl && call.request.timeoutMs == c.timeoutMs && call.request.contentType == c.contentType
    ensures t.Delivered? ==> call.result == Ok(t.data)
    ensures t.Failed? ==> call.result == Err(Intercept(t.error))
  {
    Send(c, Patch, path, data, t)
  }

  /** Every request a constructed client issues goes to the configured URL
      verbatim, with the ten-second timeout and the JSON content type. */
  lemma RequestsUseConfiguration<B, T>(meta: PluginMeta, verb: HttpMethod, path: string, body: Option<B>, t: Transport<T>)
    requires NewClient(meta).Ok?
    ensures var r := Send(NewClient(meta).value, verb, path, body, t).request;
      Some(r.baseUrl) == ApiUrl(meta) && r.timeoutMs == 10000 && r.contentType == "application/json"
  {
  }
}

=== FILE: decimal.dfy ===
/** Decimal rendering of integers, as Python's `str` prints them and as
    JavaScript template literals print integers of magnitude at most 2^53
    (above that they print the shortest digits that identify the double,
    padded with zeros, and from 1e21 on in exponent form; neither is
    modelled), and a parser that reads such a rendering back. */
module Decimal {
  import opened Wrappers

  predicate IsDigit(c: char) {
    '0' <= c <= '9'
  }

  predicate AllDigits(s: string) {
    forall i :: 0 <= i < |s| ==> IsDigit(s[i])
  }

  function DigitChar(d: nat): (c: char)
    requires d < 10
    ensures IsDigit(c) && DigitValue(c) == d
  {
    ('0' as int + d) as char
  }

  /** Value of a digit character; other characters are never asked for. */
  function DigitValue(c: char): (d: nat)
    ensures IsDigit(c) ==> d < 10
  {
    if IsDigit(c) then (c as int - '0' as int) as nat else 0
  }

  /** Shortest decimal rendering of `n`, most significant digit first: it
      starts with `0` only when it is `0` itself. */
  function NatToString(n: nat): (s: string)
    ensures |s| >= 1 && IsDigit(s[0])
    ensures s[0] == '0' <==> n == 0
    decreases n
  {
    if n < 10 then [DigitChar(n)] else NatToString(n / 10) + [DigitChar(n % 10)]
  }

  /** The rendering of a natural consists of digits only. */
  lemma {:induction false} NatToStringDigits(n: nat)
    ensures AllDigits(NatToString(n))
    decreases n
  {
    if n >= 10 {
      NatToStringDigits(n / 10);
    }
  }

  /** Rendering of an integer: a `-` sign before the magnitude when negative. */
  function IntToString(i: int): (s: string)
    ensures |s| >= 1
    ensures i < 0 <==> s[0] == '-'
  {
    if i < 0 then "-" + NatToString(-i) else NatToString(i)
  }

  /** Value of a digit string, most significant digit first. */
  function DigitsValue(s: string): nat {
    if |s| == 0 then 0 else DigitsValue(s[..|s| - 1]) * 10 + DigitValue(s[|s| - 1])
  }

  /** Length of the longest all-digit prefix of `s`. */
  function DigitRun(s: string): (k: nat)
    ensures k <= |s|
  {
    if |s| == 0 || !IsDigit(s[0]) then 0 else 1 + DigitRun(s[1..])
  }

  /** Digit strings as `NatToString` writes them: at least one digit, and no
      leading zero unless the string is `0`. */
  predicate Canonical(d: string) {
    |d| >= 1 && AllDigits(d) && (d[0] == '0' ==> |d| == 1)
  }

  /** Reads a maximal run of digits (at least one, without a leading zero) and
      returns its value with the remaining text. */
  function ParseNatPrefix(s: string): Option<(nat, string)> {
    var k := DigitRun(s);
    if k == 0 || (k > 1 && s[0] == '0') then None else Some((DigitsValue(s[..k]), s[k..]))
  }

  /** Reads an optionally `-`-signed decimal integer from the front of `s`. */
  function ParseIntPrefix(s: string): Option<(int, string)> {
    if |s| > 0 && s[0] == '-' then Signed(true, ParseNatPrefix(s[1..])) else Signed(false, ParseNatPrefix(s))
  }

  /** A parsed magnitude with its sign applied. */
  function Signed(negative: bool, parsed: Option<(nat, string)>): Option<(int, string)> {
    match parsed
    case None => None
    case Some((n, rest)) =>
      if negative && n == 0 then None   // `-0` is not a rendering
      else Some((if negative then 0 - n as int else n as int, rest))
  }

  /** The digits of `NatToString(n)` have value `n`. */
  lemma {:induction false} NatToStringValue(n: nat)
    ensures DigitsValue(NatToString(n)) == n
    decreases n
  {
    var s := NatToString(n);
    if n >= 10 {
      NatToStringValue(n / 10);
      assert s[..|s| - 1] == NatToString(n / 10);
      assert s[|s| - 1] == DigitChar(n % 10);
    }
  }

  /** A digit string followed by text that does not start with a digit is read
      up to exactly its own end. */
  lemma {:induction false} DigitRunOfDigits(d: string, rest: string)
    requires AllDigits(d)
    requires |rest| == 0 || !IsDigit(rest[0])
    ensures DigitRun(d + rest) == |d|
    decreases |d|
  {
    if |d| > 0 {
      assert (d + rest)[1..] == d[1..] + rest;
      DigitRunOfDigits(d[1..], rest);
    } else {
      assert d + rest == rest;
    }
  }

  /** Round trip: parsing a rendered natural recovers it and the rest. */
  lemma ParseNatPrefixRoundTrip(n: nat, rest: string)
    requires |rest| == 0 || !IsDigit(rest[0])
    ensures ParseNatPrefix(NatToString(n) + rest) == Some((n, rest))
  {
    var d := NatToString(n);
    NatToStringDigits(n);
    DigitRunOfDigits(d, rest);
    assert d[0] == '0' ==> |d| == 1;
    assert (d + rest)[..|d|] == d;
    assert (d + rest)[|d|..] == rest;
    NatToStringValue(n);
  }

  /** Round trip: parsing a rendered integer recovers it and the rest. */
  lemma ParseIntPrefixRoundTrip(i: int, rest: string)
    requires |rest| == 0 || !IsDigit(rest[0])
    ensures ParseIntPrefix(IntToString(i) + rest) == Some((i, rest))
  {
    if i < 0 {
      NegativeRoundTrip(i, rest);
    } else {
      NonNegativeRoundTrip(i, rest);
    }
  }

  lemma NonNegativeRoundTrip(i: int, rest: string)
    requires i >= 0
    requires |rest| == 0 || !IsDigit(rest[0])
    ensures ParseIntPrefix(IntToString(i) + rest) == Some((i, rest))
  {
    var s := IntToString(i) + rest;
    assert s == NatToString(i) + rest;
    assert IsDigit(s[0]);
    ParseNatPrefixRoundTrip(i, rest);
    assert ParseIntPrefix(s) == Signed(false, Some((i, rest)));
  }

  lemma NegativeRoundTrip(i: int, rest: string)
    requires i < 0
    requires |rest| == 0 || !IsDigit(rest[0])
    ensures ParseIntPrefix(IntToString(i) + rest) == Some((i, rest))
  {
    var m: nat := -i;
    var t := NatToString(m) + rest;
    assert IntToString(i) + rest == "-" + t;
    ParseNatPrefixRoundTrip(m, rest);
    SignedPrefix(t, m, rest);
  }

  /** A leading `-` negates a positive number that follows. */
  lemma SignedPrefix(t: string, n: nat, rest: string)
    requires ParseNatPrefix(t) == Some((n, rest)) && n >= 1
    ensures ParseIntPrefix("-" + t) == Some((0 - n as int, rest))
  {
  }

  /** The digit run at the front of a string consists of digits. */
  lemma {:induction false} DigitRunDigits(s: string)
    ensures AllDigits(s[..DigitRun(s)])
    decreases |s|
  {
    if |s| > 0 && IsDigit(s[0]) {
      DigitRunDigits(s[1..]);
      assert s[..DigitRun(s)] == [s[0]] + s[1..][..DigitRun(s[1..])];
    }
  }

  /** A digit string that does not start with `0` has a positive value. */
  lemma {:induction false} LeadingDigitPositive(d: string)
    requires |d| >= 1 && AllDigits(d) && d[0] != '0'
    ensures DigitsValue(d) >= 1
    decreases |d|
  {
    if |d| > 1 {
      LeadingDigitPositive(d[..|d| - 1]);
    }
  }

  /** Rendering the value of a canonical digit string gives the string back. */
  lemma {:induction false} CanonicalRendering(d: string)
    requires Canonical(d)
    ensures NatToString(DigitsValue(d)) == d
    decreases |d|
  {
    var last := d[|d| - 1];
    if |d| > 1 {
      var front := d[..|d| - 1];
      assert Canonical(front);
      LeadingDigitPositive(front);
      CanonicalRendering(front);
      var v := DigitsValue(d);
      assert v / 10 == DigitsValue(front) && v % 10 == DigitValue(last);
      assert DigitChar(DigitValue(last)) == last;
      assert d == front + [last];
    } else {
      assert DigitChar(DigitValue(last)) == last;
    }
  }

  /** Whatever the natural parser accepts is a rendering followed by the rest:
      the parser reads nothing but what `NatToString` writes. */
  lemma ParseNatPrefixSound(s: string, n: nat, rest: string)
    requires ParseNatPrefix(s) == Some((n, rest))
    ensures s == NatToString(n) + rest
  {
    var k := DigitRun(s);
    DigitRunDigits(s);
    assert Canonical(s[..k]);
    CanonicalRendering(s[..k]);
    assert s == s[..k] + s[k..];
  }

  /** Whatever the integer parser accepts is a rendering followed by the rest:
      no leading zero, no `-0`, no `+`. */
  lemma ParseIntPrefixSound(s: string, i: int, rest: string)
    requires ParseIntPrefix(s) == Some((i, rest))
    ensures s == IntToString(i) + rest
  {
    if |s| > 0 && s[0] == '-' {
      var t := s[1..];
      var parsed := ParseNatPrefix(t);
      assert parsed.Some?;
      var n := parsed.value.0;
      assert n != 0 && i == 0 - n as int && parsed.value.1 == rest;
      ParseNatPrefixSound(t, n, rest);
      assert s == "-" + t;
    } else {
      var parsed := ParseNatPrefix(s);
      assert parsed.Some?;
      ParseNatPrefixSound(s, parsed.value.0, rest);
    }
  }
}

=== FILE: grafana_gen.dfy ===
/** The dashboard generator consumer (services/grafana_gen/main.py): message
    validation, the aggregation pipeline of each panel, the dashboard identity
    and the acknowledgement decision. The HTTP POST to Grafana and the message
    broker are replaced by explicit outcomes. */
module GrafanaGen {
  import opened Wrappers
  import opened PyJson

  const RequestTimeKey := "request_time"
  const ExprKey := "$expr"
  const DefaultLimit := 100
  const UidPrefix := "worker-"
  const UidIdLength := 18
  const TitlePrefix := "Worker Monitoring - "

  /** `{"$toDate": {"$toLong": bound}}` */
  function AsDate(bound: string): Json {
    Obj([("$toDate", Obj([("$toLong", Str(bound))]))])
  }

  /** The `$expr` every query starts from: `request_time` strictly after
      `$__from` and strictly before `$__to`. */
  function TimeWindow(): Json {
    Obj([("$and", Arr([
      Obj([("$gt", Arr([Str("$request_time"), AsDate("$__from")]))]),
      Obj([("$lt", Arr([Str("$request_time"), AsDate("$__to")]))])]))])
  }

  /** One stage of an aggregation pipeline; the JSON text is not modelled. */
  datatype Stage =
    | Match(fields: seq<(string, Json)>)
    | Group(spec: Json)
    | Project(spec: Json)
    | Sort(spec: Json)
    | Limit(count: Json)

  /** Position of each kind of stage in a pipeline. */
  function Rank(s: Stage): nat {
    match s
    case Match(_) => 0
    case Group(_) => 1
    case Project(_) => 2
    case Sort(_) => 3
    case Limit(_) => 4
  }

  /** The body of the `$match` stage: the time window under `$expr`, then
      every filter entry, in order, except `request_time`. */
  function MatchFields(filter: seq<(string, Json)>): (r: seq<(string, Json)>)
    ensures |r| > 0 && r[0].0 == "$expr"
    ensures Lookup(r, "request_time") == None
    ensures Lookup(r, "$expr") == if Lookup(filter, "$expr").Some? then Lookup(filter, "$expr") else Some(TimeWindow())
    ensures forall k :: k != "request_time" && k != "$expr" ==> Lookup(r, k) == Lookup(filter, k)
  {
    if |filter| == 0 then [(ExprKey, TimeWindow())]
    else
      var n := |filter|;
      var prev := MatchFields(filter[..n - 1]);
      var (k, v) := filter[n - 1];
      if k != RequestTimeKey then Assign(prev, k, v) else prev
  }

  /** The Grafana MongoDB query of one panel. */
  datatype Query = Query(datasourceUid: string, database: string, collection: string,
                         pipeline: seq<Stage>, queryType: string, refId: string)

  /** `[stage]` when the argument guarding it is truthy, else nothing. */
  function When(present: bool, stage: Stage): (r: seq<Stage>)
    ensures |r| == if present then 1 else 0
    ensures forall t :: t in r <==> present && t == stage
  {
    if present then [stage] else []
  }

  /** The optional middle of a pipeline: `$group`, `$project`, `$sort`, each
      present iff its argument is truthy, in that order. */
  function OptionalStages(group: Json, project: Json, sort: Json): (m: seq<Stage>)
    ensures |m| == (if Truthy(group) then 1 else 0) + (if Truthy(project) then 1 else 0) + (if Truthy(sort) then 1 else 0)
    ensures forall i :: 0 <= i < |m| ==> 1 <= Rank(m[i]) <= 3
    ensures forall i :: 0 <= i < |m| - 1 ==> Rank(m[i]) < Rank(m[i + 1])
    ensures Group(group) in m <==> Truthy(group)
    ensures Project(project) in m <==> Truthy(project)
    ensures Sort(sort) in m <==> Truthy(sort)
    ensures forall t :: t in m ==> t == Group(group) || t == Project(project) || t == Sort(sort)
  {
    var g := When(Truthy(group), Group(group));
    var p := When(Truthy(project), Project(project));
    var s := When(Truthy(sort), Sort(sort));
    assert forall t :: t in g + p + s <==> t in g || t in p || t in s;
    g + p + s
  }

  /** Putting the optional stages between `$match` and `$limit` keeps the
      stage kinds in order. */
  lemma BetweenMatchAndLimit(first: Stage, middle: seq<Stage>, last: Stage)
    requires first.Match? && last.Limit?
    requires forall i :: 0 <= i < |middle| ==> 1 <= Rank(middle[i]) <= 3
    requires forall i :: 0 <= i < |middle| - 1 ==> Rank(middle[i]) < Rank(middle[i + 1])
    ensures var p := [first] + middle + [last];
      && (forall i :: 0 <= i < |p| - 1 ==> Rank(p[i]) < Rank(p[i + 1]))
      && (forall t :: t in p <==> t == first || t in middle || t == last)
  {
  }

  /** The stages of `aggregate_query(match_filter, project, group, sort,
      limit)`; `None` for `limit` means the argument was omitted. */
  function Pipeline(filter: seq<(string, Json)>, project: Json, group: Json, sort: Json, limit: Option<Json>): seq<Stage> {
    [Match(MatchFields(filter))] + OptionalStages(group, project, sort) + [Limit(limit.GetOr(Num(DefaultLimit)))]
  }

  /** `aggregate_query(...)`: the pipeline against the fixed data source,
      database and collection. The shape of the pipeline is stated by
      `PipelineEnds`, `PipelineOrder` and `PipelineStages`. */
  function AggregateQuery(filter: seq<(string, Json)>, project: Json, group: Json, sort: Json, limit: Option<Json>): (q: Query)
    ensures q.datasourceUid == "mongodb" && q.database == "ping_workers" && q.collection == "ping_data"
    ensures q.queryType == "table" && q.refId == "A"
    ensures q.pipeline == Pipeline(filter, project, group, sort, limit)
  {
    Query("mongodb", "ping_workers", "ping_data", Pipeline(filter, project, group, sort, limit), "table", "A")
  }

  /** The pipeline starts with `$match` on the filter, ends with `$limit`
      (100 when omitted) and has one stage for each truthy optional argument
      in between. */
  lemma PipelineEnds(filter: seq<(string, Json)>, project: Json, group: Json, sort: Json, limit: Option<Json>)
    ensures var p := Pipeline(filter, project, group, sort, limit);
      && |p| == 2 + (if Truthy(group) then 1 else 0) + (if Truthy(project) then 1 else 0) + (if Truthy(sort) then 1 else 0)
      && p[0] == Match(MatchFields(filter))
      && p[|p| - 1] == Limit(limit.GetOr(Num(100)))
  {
  }

  /** The stages are always in the order `$match`, `$group`, `$project`,
      `$sort`, `$limit`, whichever of them are present. */
  lemma PipelineOrder(filter: seq<(string, Json)>, project: Json, group: Json, sort: Json, limit: Option<Json>)
    ensures var p := Pipeline(filter, project, group, sort, limit);
      forall i :: 0 <= i < |p| - 1 ==> Rank(p[i]) < Rank(p[i + 1])
  {
    BetweenMatchAndLimit(Match(MatchFields(filter)), OptionalStages(group, project, sort), Limit(limit.GetOr(Num(DefaultLimit))));
  }

  /** `$group`, `$project` and `$sort` appear exactly when their arguments
      are truthy, and no other stages appear between `$match` and `$limit`. */
  lemma PipelineStages(filter: seq<(string, Json)>, project: Json, group: Json, sort: Json, limit: Option<Json>)
    ensures var p := Pipeline(filter, project, group, sort, limit);
      && (Group(group) in p <==> Truthy(group))
      && (Project(project) in p <==> Truthy(project))
      && (Sort(sort) in p <==> Truthy(sort))
      && (forall s :: s in p ==> s.Match? || s.Limit? || s == Group(group) || s == Project(project) || s == Sort(sort))
  {
    BetweenMatchAndLimit(Match(MatchFields(filter)), OptionalStages(group, project, sort), Limit(limit.GetOr(Num(DefaultLimit))));
  }

  /** `{"$toDate": {"$subtract": [t, {"$mod": [t, 60000]}]}}` with `t` the
      request time as a long: the start of the request's minute. */
  function MinuteBucket(): Json {
    var t := Obj([("$toLong", Str("$request_time"))]);
    Obj([("$toDate", Obj([("$subtract", Arr([t, Obj([("$mod", Arr([t, Num(60000)]))])]))]))])
  }

  /** Group by minute, averaging `field` into `name`. */
  function AverageByMinute(name: string, field: string): Json {
    Obj([("_id", Obj([("interval", MinuteBucket())])), (name, Obj([("$avg", Str(field))]))])
  }

  /** Keep the minute and the average, drop `_id`. */
  function IntervalProjection(name: string): Json {
    Obj([("interval", Str("$_id.interval")), (name, Num(1)), ("_id", Num(0))])
  }

  /** `{"url": {"$eq": url}}` */
  function UrlFilter(url: Json): seq<(string, Json)> {
    [("url", Obj([("$eq", url)]))]
  }

  datatype Panel = Panel(id: int, title: string, kind: string, target: Query)

  datatype Dashboard = Dashboard(uid: string, title: string, tags: seq<string>, panels: seq<Panel>,
                                 folderId: int, overwrite: bool)

  /** Response time: average duration per minute, up to 100 minutes. */
  function ResponseTimeQuery(url: Json): Query {
    AggregateQuery(UrlFilter(url), IntervalProjection("avg_duration"),
                   AverageByMinute("avg_duration", "$duration_microseconds"),
                   Obj([("interval", Num(1))]), Some(Num(100)))
  }

  /** Status code: the latest record only. */
  function StatusQuery(url: Json): Query {
    AggregateQuery(UrlFilter(url), Obj([("status_code", Num(1)), ("request_time", Num(1))]),
                   Null, Obj([("request_time", Num(-1))]), Some(Num(1)))
  }

  /** Body length: average body length per minute, up to 100 minutes. */
  function BodyLengthQuery(url: Json): Query {
    AggregateQuery(UrlFilter(url), IntervalProjection("avg_body_length"),
                   AverageByMinute("avg_body_length", "$body_length"),
                   Obj([("interval", Num(1))]), Some(Num(100)))
  }

  /** The three panels of a worker's dashboard: response time and body length
      as time series, the status code as a single stat. */
  function Panels(url: Json): (panels: seq<Panel>)
    ensures |panels| == 3
    ensures forall i :: 0 <= i < 3 ==> panels[i].id == i + 1
    ensures panels[0].title == "Response Time (microseconds)" && panels[0].kind == "timeseries"
    ensures panels[1].title == "Status Code" && panels[1].kind == "stat"
    ensures panels[2].title == "Body Length" && panels[2].kind == "timeseries"
  {
    [ Panel(1, "Response Time (microseconds)", "timeseries", ResponseTimeQuery(url)),
      Panel(2, "Status Code", "stat", StatusQuery(url)),
      Panel(3, "Body Length", "timeseries", BodyLengthQuery(url)) ]
  }

  function Min(a: int, b: int): int {
    if a < b then a else b
  }

  /** The dashboard uid: `worker-` and at most 18 characters of
      `str(payload.get('worker_id', 'unknown'))`. */
  function Uid(payload: seq<(string, Json)>, containerStr: Json -> string): (uid: string)
    ensures var id := PyStr(Lookup(payload, "worker_id").GetOr(Str("unknown")), containerStr);
      && |uid| == |UidPrefix| + Min(UidIdLength, |id|)
      && uid[..|UidPrefix|] == UidPrefix
      && uid[|UidPrefix|..] <= id
  {
    var id := PyStr(Lookup(payload, "worker_id").GetOr(Str("unknown")), containerStr);
    UidPrefix + id[..Min(UidIdLength, |id|)]
  }

  /** The dashboard title: the fixed prefix followed by `str(url)`. */
  function Title(url: Json, containerStr: Json -> string): (title: string)
    ensures |title| >= |TitlePrefix| && title[..|TitlePrefix|] == TitlePrefix && title[|TitlePrefix|..] == PyStr(url, containerStr)
  {
    TitlePrefix + PyStr(url, containerStr)
  }

  /** The dashboard posted for a valid message. */
  function BuildDashboard(payload: seq<(string, Json)>, url: Json, containerStr: Json -> string): Dashboard {
    Dashboard(Uid(payload, containerStr), Title(url, containerStr),
              ["auto-generated", "worker", "mongodb"], Panels(url), 0, false)
  }

  /** The `$match` body every panel uses: the worker's URL and the dashboard's
      time range. */
  lemma UrlMatchFields(url: Json)
    ensures Lookup(MatchFields(UrlFilter(url)), "url") == Some(Obj([("$eq", url)]))
    ensures Lookup(MatchFields(UrlFilter(url)), "$expr") == Some(TimeWindow())
  {
  }

  /** A query reading the worker's URL in the dashboard's time range. */
  predicate ReadsUrl(q: Query, url: Json) {
    && |q.pipeline| > 0 && q.pipeline[0].Match?
    && Lookup(q.pipeline[0].fields, "url") == Some(Obj([("$eq", url)]))
    && Lookup(q.pipeline[0].fields, "$expr") == Some(TimeWindow())
  }

  /** Any query built on the URL filter reads only that URL inside the
      dashboard's time range, whatever its other stages. */
  lemma UrlQueryReadsUrl(url: Json, project: Json, group: Json, sort: Json, limit: Option<Json>)
    ensures ReadsUrl(AggregateQuery(UrlFilter(url), project, group, sort, limit), url)
  {
    UrlMatchFields(url);
    PipelineEnds(UrlFilter(url), project, group, sort, limit);
  }

  /** Every panel reads only the worker's URL inside the dashboard's time
      range. */
  lemma PanelsQueryTheUrl(url: Json)
    ensures ReadsUrl(Panels(url)[0].target, url)
    ensures ReadsUrl(Panels(url)[1].target, url)
    ensures ReadsUrl(Panels(url)[2].target, url)
  {
    UrlQueryReadsUrl(url, IntervalProjection("avg_duration"), AverageByMinute("avg_duration", "$duration_microseconds"),
                     Obj([("interval", Num(1))]), Some(Num(100)));
    UrlQueryReadsUrl(url, Obj([("status_code", Num(1)), ("request_time", Num(1))]), Null,
                     Obj([("request_time", Num(-1))]), Some(Num(1)));
    UrlQueryReadsUrl(url, IntervalProjection("avg_body_length"), AverageByMinute("avg_body_length", "$body_length"),
                     Obj([("interval", Num(1))]), Some(Num(100)));
  }

  /** The time-series panels keep all five stages and at most 100 minutes. */
  lemma TimeSeriesQueriesShape(url: Json)
    ensures |ResponseTimeQuery(url).pipeline| == 5 && ResponseTimeQuery(url).pipeline[4] == Limit(Num(100))
    ensures |BodyLengthQuery(url).pipeline| == 5 && BodyLengthQuery(url).pipeline[4] == Limit(Num(100))
  {
    PipelineEnds(UrlFilter(url), IntervalProjection("avg_duration"), AverageByMinute("avg_duration", "$duration_microseconds"),
                 Obj([("interval", Num(1))]), Some(Num(100)));
    PipelineEnds(UrlFilter(url), IntervalProjection("avg_body_length"), AverageByMinute("avg_body_length", "$body_length"),
                 Obj([("interval", Num(1))]), Some(Num(100)));
    assert Truthy(IntervalProjection("avg_duration")) && Truthy(AverageByMinute("avg_duration", "$duration_microseconds"));
    assert Truthy(IntervalProjection("avg_body_length")) && Truthy(AverageByMinute("avg_body_length", "$body_length"));
    assert Truthy(Obj([("interval", Num(1))]));
  }

  /** The status panel has no `$group` and keeps only the latest record. */
  lemma StatusQueryShape(url: Json)
    ensures |StatusQuery(url).pipeline| == 4 && StatusQuery(url).pipeline[3] == Limit(Num(1))
    ensures forall s :: s in StatusQuery(url).pipeline ==> !s.Group?
  {
    PipelineEnds(UrlFilter(url), Obj([("status_code", Num(1)), ("request_time", Num(1))]), Null,
                 Obj([("request_time", Num(-1))]), Some(Num(1)));
    PipelineStages(UrlFilter(url), Obj([("status_code", Num(1)), ("request_time", Num(1))]), Null,
                   Obj([("request_time", Num(-1))]), Some(Num(1)));
    assert !Truthy(Null) && Truthy(Obj([("status_code", Num(1)), ("request_time", Num(1))]));
    assert Truthy(Obj([("request_time", Num(-1))]));
  }

  /** The POST to Grafana: the status code it answered, or an exception. */
  datatype PostOutcome = Responded(status: int) | PostRaised

  /** What `create_grafana_dashboard` did: returned a boolean (with the
      dashboard it posted, if it got that far) or raised (idem). */
  datatype CreateOutcome =
    | Returned(created: bool, posted: Option<Dashboard>)
    | Raised(posted: Option<Dashboard>)

  /** `payload` of the message, as `worker_data.get("payload")`. */
  function PayloadOf(message: Json): Json
    requires message.Obj?
  {
    Lookup(message.fields, "payload").GetOr(Null)
  }

  /** `url` of the payload, as `payload.get("url")`. */
  function UrlOf(payload: Json): Json
    requires payload.Obj?
  {
    Lookup(payload.fields, "url").GetOr(Null)
  }

  /** A message that gets as far as the POST: a dict whose `payload` is a
      non-empty dict whose `url` is truthy. */
  predicate WellFormed(message: Json) {
    message.Obj? && PayloadOf(message).Obj? && Truthy(PayloadOf(message)) && Truthy(UrlOf(PayloadOf(message)))
  }

  /** `create_grafana_dashboard(worker_data)`. A falsy payload or url returns
      False without posting; calling `.get` on something that is not a dict
      raises; otherwise the dashboard is posted and the result is whether
      Grafana answered 200. */
  function CreateGrafanaDashboard(message: Json, containerStr: Json -> string, post: PostOutcome): (r: CreateOutcome)
    ensures !message.Obj? ==> r == Raised(None)
    ensures message.Obj? && !Truthy(PayloadOf(message)) ==> r == Returned(false, None)
    ensures message.Obj? && Truthy(PayloadOf(message)) && !PayloadOf(message).Obj? ==> r == Raised(None)
    ensures message.Obj? && PayloadOf(message).Obj? && !Truthy(UrlOf(PayloadOf(message))) ==> r == Returned(false, None)
    ensures r.posted.Some? <==> WellFormed(message)
    ensures WellFormed(message) ==> r.posted.value.uid == Uid(PayloadOf(message).fields, containerStr)
    ensures WellFormed(message) ==> r.posted.value.title == Title(UrlOf(PayloadOf(message)), containerStr)
    ensures WellFormed(message) ==> r.posted.value.panels == Panels(UrlOf(PayloadOf(message)))
    ensures WellFormed(message) ==> !r.posted.value.overwrite
    ensures r.Returned? && r.created <==> WellFormed(message) && post == Responded(200)
    ensures r.Raised? && r.posted.Some? <==> WellFormed(message) && post.PostRaised?
  {
    if !message.Obj? then Raised(None)
    else
      var payload := PayloadOf(message);
      if !Truthy(payload) then Returned(false, None)
      else if !payload.Obj? then Raised(None)
      else
        var url := UrlOf(payload);
        if !Truthy(url) then Returned(false, None)
        else
          var dashboard := BuildDashboard(payload.fields, url, containerStr);
          match post
          case PostRaised => Raised(Some(dashboard))
          case Responded(status) => Returned(status == 200, Some(dashboard))
  }

  /** `on_message`: `message` is the decoded body, `None` when `json.loads`
      raised. The message is acknowledged exactly when the dashboard was
      created; any exception leaves it unacknowledged for redelivery. */
  function OnMessage(message: Option<Json>, containerStr: Json -> string, post: PostOutcome): (ack: bool)
    ensures message.None? ==> !ack
    ensures message.Some? && CreateGrafanaDashboard(message.value, containerStr, post).Raised? ==> !ack
    ensures ack ==> message.Some? && CreateGrafanaDashboard(message.value, containerStr, post).posted.Some?
  {
    match message
    case None => false
    case Some(m) =>
      match CreateGrafanaDashboard(m, containerStr, post)
      case Raised(_) => false
      case Returned(created, _) => created
  }

  /** The acknowledgement in terms of the message alone: acked iff it is well
      formed and Grafana answered 200 to the POST. */
  lemma AckIffCreated(message: Option<Json>, containerStr: Json -> string, post: PostOutcome)
    ensures OnMessage(message, containerStr, post) <==> message.Some? && WellFormed(message.value) && post == Responded(200)
  {
  }
}

=== FILE: models.dfy ===
/** The plugin's records: workers, paged responses, request models and the
    plugin settings (plugin/src/models, plugin/src/requests, api/client.ts). */
module Models {
  import opened Wrappers

  /** How often a worker checks its URL; interpreted by the backend only. */
  datatype Period = Minute | Hour | Day | Week | Month

  /** A monitoring job; `id` is assigned by the backend. */
  datatype Worker = Worker(id: string, url: string, period: Period)

  /** Pagination block of a backend response (fields `page_size`, `has_next`,
      `has_prev` of the wire format are `pageSize`, `hasNext`, `hasPrev`). */
  datatype PaginationSettings = PaginationSettings(
    page: int, pageSize: int, pages: int, total: int, hasNext: bool, hasPrev: bool)

  /** One page of items together with its pagination block. */
  datatype Paged<T> = Paged(items: seq<T>, pagination: PaginationSettings)

  /** Body of the worker-creation request. */
  datatype CreateUrlRequest = CreateUrlRequest(url: string, period: Period)

  /** The page wanted from the worker list. JavaScript numbers are modelled as
      integers. */
  datatype PaginationRequest = PaginationRequest(page: int, pageSize: int)

  /** `PluginConfig`: the only setting is the optional API base URL. */
  datatype PluginConfig = PluginConfig(apiUrl: Option<string>)

  /** The host's plugin metadata; `jsonData` itself may be missing. */
  datatype PluginMeta = PluginMeta(jsonData: Option<PluginConfig>)

  /** `pluginMeta.jsonData?.apiUrl` */
  function ApiUrl(meta: PluginMeta): Option<string> {
    match meta.jsonData
    case None => None
    case Some(config) => config.apiUrl
  }

  /** JavaScript truthiness of `pluginMeta.jsonData?.apiUrl`: present and not
      the empty string. No trimming: a blank string is truthy. */
  predicate HasApiUrl(meta: PluginMeta) {
    ApiUrl(meta).Some? && ApiUrl(meta).value != ""
  }
}

=== FILE: py_json.dfy ===
/** Decoded JSON values as the Python consumer sees them after `json.loads`:
    truthiness, `dict.get`, item assignment and `str`. Numbers are integers. */
module PyJson {
  import opened Wrappers
  import opened Decimal

  datatype Json =
    | Null
    | Bool(b: bool)
    | Num(n: int)
    | Str(s: string)
    | Arr(items: seq<Json>)
    | Obj(fields: seq<(string, Json)>)   // a dict, in insertion order

  /** Python's `bool(v)`: `None`, `False`, `0` and empty strings, lists and
      dicts are false. */
  predicate Truthy(v: Json) {
    match v
    case Null => false
    case Bool(b) => b
    case Num(n) => n != 0
    case Str(s) => s != ""
    case Arr(items) => items != []
    case Obj(fields) => fields != []
  }

  /** `d.get(key)`: the value of the last entry with that key (the one
      `json.loads` keeps when a key repeats), or `None`. */
  function Lookup(fields: seq<(string, Json)>, key: string): Option<Json> {
    if |fields| == 0 then None
    else if fields[|fields| - 1].0 == key then Some(fields[|fields| - 1].1)
    else Lookup(fields[..|fields| - 1], key)
  }

  /** Every entry with key `key` gets value `value`; positions are kept. */
  function Replace(fields: seq<(string, Json)>, key: string, value: Json): (r: seq<(string, Json)>)
    ensures |r| == |fields|
    ensures forall i :: 0 <= i < |r| ==> r[i].0 == fields[i].0
  {
    if |fields| == 0 then []
    else
      var last := fields[|fields| - 1];
      Replace(fields[..|fields| - 1], key, value) + [if last.0 == key then (key, value) else last]
  }

  /** Replacing changes the value seen for `key`, when present, and nothing
      else. */
  lemma {:induction false} LookupReplace(fields: seq<(string, Json)>, key: string, value: Json, k: string)
    ensures k != key ==> Lookup(Replace(fields, key, value), k) == Lookup(fields, k)
    ensures k == key ==> Lookup(Replace(fields, key, value), k) == if Lookup(fields, key).Some? then Some(value) else None
    decreases |fields|
  {
    var n := |fields|;
    if n > 0 {
      var r := Replace(fields, key, value);
      var prefix := fields[..n - 1];
      assert r[..n - 1] == Replace(prefix, key, value);
      LookupReplace(prefix, key, value, k);
    }
  }

  /** `d[key] = value`: overwrites in place when the key is present, appends
      otherwise; no other key's value changes. */
  function Assign(fields: seq<(string, Json)>, key: string, value: Json): (r: seq<(string, Json)>)
    ensures Lookup(r, key) == Some(value)
    ensures forall k :: k != key ==> Lookup(r, k) == Lookup(fields, k)
    ensures |r| >= |fields|
    ensures forall i :: 0 <= i < |fields| ==> r[i].0 == fields[i].0
  {
    if Lookup(fields, key).Some? then
      var r := Replace(fields, key, value);
      assert forall k :: Lookup(r, k) == if k == key then Some(value) else Lookup(fields, k) by {
        forall k ensures Lookup(r, k) == if k == key then Some(value) else Lookup(fields, k) {
          LookupReplace(fields, key, value, k);
        }
      }
      r
    else
      var r := fields + [(key, value)];
      assert r[..|r| - 1] == fields;
      r
  }

  /** Python's `str(v)`. Lists and dicts are printed by `containerStr`: their
      `repr` quoting rules are not part of this model. */
  function PyStr(v: Json, containerStr: Json -> string): (s: string)
    ensures v.Null? ==> s == "None"
    ensures v.Bool? ==> (s == "True" <==> v.b) && (s == "False" <==> !v.b)
    ensures v.Num? ==> s == IntToString(v.n) && ParseIntPrefix(s) == Some((v.n, ""))
    ensures v.Num? ==> (s[0] == '-' <==> v.n < 0)
    ensures v.Str? ==> s == v.s
    ensures v.Arr? || v.Obj? ==> s == containerStr(v)
  {
    match v
    case Null => "None"
    case Bool(b) => if b then "True" else "False"
    case Num(n) =>
      ParseIntPrefixRoundTrip(n, "");
      assert IntToString(n) + "" == IntToString(n);
      IntToString(n)
    case Str(s) => s
    case Arr(_) => containerStr(v)
    case Obj(_) => containerStr(v)
  }
}

=== FILE: urls_api.dfy ===
/** `URLsAPI` (plugin/src/api/urls.ts): worker creation. */
module UrlsApi {
  import opened Wrappers
  import opened Models
  import opened Client

  const Prefix := "/urls"

  datatype Api = Api(client: ApiClient)

  /** `URLsAPI.create(model)`: a POST of the model, unchanged, to the bare
      prefix; the created worker is returned as received. */
  function Create(api: Api, model: CreateUrlRequest, t: Transport<Worker>): (call: Call<CreateUrlRequest, Worker>)
    ensures call.request.verb == Post && call.request.path == "/urls"
    ensures forall i :: 0 <= i < |call.request.path| ==> call.request.path[i] != '?'
    ensures call.request.body == Some(model)
    ensures call.request.baseUrl == api.client.baseUrl
    ensures t.Delivered? ==> call.result == Ok(t.data)
    ensures t.Failed? ==> call.result == Err(Intercept(t.error))
  {
    PostVerb(api.client, Prefix, Some(model), t)
  }
}

=== FILE: use_urls.dfy ===
/** The `useUrls` hook (plugin/src/hooks/useUrls.ts): worker creation with a
    loading flag and an error message. */
module UseUrls {
  import opened Wrappers
  import opened Models
  import opened Client
  import UrlsApi

  const NotConfiguredMessage := "URLs API is not configured"
  const CreateFallbackMessage := "Failed to create URL"

  datatype State = State(loading: bool, error: Option<string>)

  /** State on mount: not loading and no error. */
  function Initial(): (s: State)
    ensures !s.loading && s.error == None
  {
    State(false, None)
  }

  /** The `useMemo` that builds the API object; `null` when construction throws. */
  function MakeApi(meta: PluginMeta): (api: Option<UrlsApi.Api>)
    ensures api.Some? <==> NewClient(meta).Ok?
    ensures api.Some? ==> api.value.client == NewClient(meta).value
  {
    match NewClient(meta)
    case Ok(client) => Some(UrlsApi.Api(client))
    case Err(_) => None
  }

  /** `isConfigured`: truthiness of `apiUrl`, which is exactly when the API
      object exists. */
  function IsConfigured(meta: PluginMeta): (r: bool)
    ensures r <==> ApiUrl(meta).Some? && |ApiUrl(meta).value| > 0
    ensures r <==> MakeApi(meta).Some?
  {
    HasApiUrl(meta)
  }

  /** One `createUrl` call: the model handed to `URLsAPI.create`, if any, what
      the returned promise settles to, and the state afterwards. */
  datatype Creation = Creation(request: Option<CreateUrlRequest>, outcome: Result<Worker, Thrown>, state: State)

  /** `createUrl(model)`. Unconfigured, it throws before touching any state;
      otherwise it resolves to the created worker or records the error and
      rethrows the very same error, with `loading` cleared either way. */
  function CreateUrl(s: State, api: Option<UrlsApi.Api>, model: CreateUrlRequest, reply: Result<Worker, Thrown>): (c: Creation)
    ensures api.None? ==> c.request == None && c.state == s
    ensures api.None? ==> c.outcome == Err(PlainError(NotConfiguredMessage))
    ensures api.Some? ==> c.request == Some(model) && !c.state.loading && c.outcome == reply
    ensures api.Some? && reply.Ok? ==> c.state.error == None
    ensures api.Some? && reply.Err? ==> c.state.error == Some(ErrorText(reply.error, CreateFallbackMessage))
  {
    match api
    case None => Creation(None, Err(PlainError(NotConfiguredMessage)), s)
    case Some(_) =>
      var pending := s.(loading := true, error := None);
      match reply
      case Ok(worker) => Creation(Some(model), Ok(worker), pending.(loading := false))
      case Err(e) => Creation(Some(model), Err(e), pending.(error := Some(ErrorText(e, CreateFallbackMessage)), loading := false))
  }

  /** `clearError()`: only the error goes. */
  function ClearError(s: State): (r: State)
    ensures r.error == None && r.loading == s.loading
  {
    s.(error := None)
  }

  /** Clearing the error is idempotent. */
  lemma ClearErrorIdempotent(s: State)
    ensures ClearError(ClearError(s)) == ClearError(s)
    ensures s.error == None ==> ClearError(s) == s
  {
  }

  /** Without a usable `apiUrl`, `createUrl` issues nothing and fails with the
      configuration error; with one it always reaches the API. */
  lemma GateDecidesRequest(meta: PluginMeta, s: State, model: CreateUrlRequest, reply: Result<Worker, Thrown>)
    ensures var c := CreateUrl(s, MakeApi(meta), model, reply);
      (c.request.None? <==> !IsConfigured(meta))
      && (!IsConfigured(meta) ==> c.outcome.Err? && c.outcome.error.message == NotConfiguredMessage && c.state == s)
  {
  }

  /** End to end: the worker the server returns for `POST /urls` is what
      `createUrl` resolves to, and the body posted is the model itself. */
  lemma CreatedWorkerIsReturned(s: State, api: UrlsApi.Api, model: CreateUrlRequest, created: Worker)
    ensures var call := UrlsApi.Create(api, model, Delivered(created));
      var c := CreateUrl(s, Some(api), model, call.result);
      c.outcome == Ok(created) && call.request.body == Some(model) && c.state == State(false, None)
  {
  }

  /** End to end: a failed `POST /urls` is rethrown as the interceptor left it,
      and its message (or the fallback) is recorded. */
  lemma FailureIsRethrown(s: State, api: UrlsApi.Api, model: CreateUrlRequest, e: Thrown)
    ensures var c := CreateUrl(s, Some(api), model, UrlsApi.Create(api, model, Failed(e)).result);
      && c.outcome == Err(Intercept(e))
      && (StatusOf(e) == Some(404) ==> c.state.error == Some(NotFoundMessage))
      && (StatusOf(e).Some? && StatusOf(e).value >= 500 ==> c.state.error == Some(ServerErrorMessage))
      && (e.NonError? ==> c.state.error == Some(CreateFallbackMessage))
      && !c.state.loading
  {
  }

  /** The example of a created worker: `https://example.com` every hour comes
      back with id `abc` and is returned as that exact object. */
  lemma ExampleCreation(api: UrlsApi.Api)
    ensures var model := CreateUrlRequest("https://example.com", Hour);
      var created := Worker("abc", "https://example.com", Hour);
      CreateUrl(Initial(), Some(api), model, UrlsApi.Create(api, model, Delivered(created)).result).outcome == Ok(created)
  {
  }
}

=== FILE: use_workers.dfy ===
/** The `useWorkers` hook (plugin/src/hooks/useWorkers.ts) as a state machine.
    React state becomes an immutable `State`; every operation takes the memoised
    API object (absent when the client could not be constructed) and the reply
    that `WorkersAPI.get` settled to. */
module UseWorkers {
  import opened Wrappers
  import opened Models
  import opened Client
  import WorkersApi

  const NotConfiguredMessage := "Workers API is not configured"
  const FetchFallbackMessage := "Failed to fetch workers"

  /** The hook's pagination state: only page, page size and total are kept. */
  datatype Cursor = Cursor(page: int, pageSize: int, total: int)

  datatype State = State(workers: seq<Worker>, loading: bool, error: Option<string>, pagination: Cursor)

  /** State on mount: no workers, not loading, no error, page 1 of 10 with a
      total of 0. */
  function Initial(): (s: State)
    ensures s.workers == [] && !s.loading && s.error == None
    ensures s.pagination.page == 1 && s.pagination.pageSize == 10 && s.pagination.total == 0
  {
    State([], false, None, Cursor(1, 10, 0))
  }

  /** The `useMemo` that builds the API object; `null` when construction throws. */
  function MakeApi(meta: PluginMeta): (api: Option<WorkersApi.Api>)
    ensures api.Some? <==> NewClient(meta).Ok?
    ensures api.Some? ==> api.value.client == NewClient(meta).value
  {
    match NewClient(meta)
    case Ok(client) => Some(WorkersApi.Api(client))
    case Err(_) => None
  }

  /** `isConfigured`: truthiness of `apiUrl`, which is exactly when the API
      object exists. A blank but non-empty URL counts as configured. */
  function IsConfigured(meta: PluginMeta): (r: bool)
    ensures r <==> ApiUrl(meta).Some? && |ApiUrl(meta).value| > 0
    ensures r <==> MakeApi(meta).Some?
  {
    HasApiUrl(meta)
  }

  /** The cursor the hook keeps from a response's pagination block. */
  function CursorOf(p: PaginationSettings): Cursor {
    Cursor(p.page, p.pageSize, p.total)
  }

  /** `setLoading(true); setError(null)` before the request. */
  function Begin(s: State): (r: State)
    ensures r.loading && r.error == None
    ensures r.workers == s.workers && r.pagination == s.pagination
  {
    s.(loading := true, error := None)
  }

  /** What happens when the request settles: the reply is applied to the state
      it is given (there is no request sequencing), and `finally` clears
      `loading`. */
  function Complete(s: State, reply: Result<Paged<Worker>, Thrown>): (r: State)
    ensures !r.loading
    ensures reply.Ok? ==> r.workers == reply.value.items && r.error == s.error
    ensures reply.Ok? ==> r.pagination == Cursor(reply.value.pagination.page, reply.value.pagination.pageSize, reply.value.pagination.total)
    ensures reply.Err? ==> r.workers == s.workers && r.pagination == s.pagination
    ensures reply.Err? ==> r.error == Some(ErrorText(reply.error, FetchFallbackMessage))
  {
    match reply
    case Ok(page) => s.(workers := page.items, pagination := CursorOf(page.pagination), loading := false)
    case Err(e) => s.(error := Some(ErrorText(e, FetchFallbackMessage)), loading := false)
  }

  /** One `fetchWorkers` call: the request handed to `WorkersAPI.get`, if any,
      and the state once it has settled. */
  datatype Fetch = Fetch(request: Option<PaginationRequest>, state: State)

  /** `fetchWorkers(page?, page_size?)`; an omitted argument defaults to the
      current cursor. */
  function FetchWorkers(s: State, api: Option<WorkersApi.Api>, page: Option<int>, pageSize: Option<int>,
                        reply: Result<Paged<Worker>, Thrown>): (f: Fetch)
    ensures api.None? ==> f.request == None
    ensures api.None? ==> f.state == s.(error := Some(NotConfiguredMessage))
    ensures api.Some? ==> f.request == Some(PaginationRequest(page.GetOr(s.pagination.page), pageSize.GetOr(s.pagination.pageSize)))
    ensures api.Some? ==> !f.state.loading
    ensures api.Some? && reply.Ok? ==> f.state.workers == reply.value.items && f.state.error == None
    ensures api.Some? && reply.Ok? ==> f.state.pagination == CursorOf(reply.value.pagination)
    ensures api.Some? && reply.Err? ==> f.state.workers == s.workers && f.state.pagination == s.pagination
    ensures api.Some? && reply.Err? ==> f.state.error == Some(ErrorText(reply.error, FetchFallbackMessage))
  {
    if api.None? then Fetch(None, s.(error := Some(NotConfiguredMessage)))
    else
      var request := PaginationRequest(page.GetOr(s.pagination.page), pageSize.GetOr(s.pagination.pageSize));
      Fetch(Some(request), Complete(Begin(s), reply))
  }

  /** `changePage(n)`: page `n` at the current page size. */
  function ChangePage(s: State, api: Option<WorkersApi.Api>, page: int, reply: Result<Paged<Worker>, Thrown>): (f: Fetch)
    ensures api.None? ==> f.request == None && f.state == s.(error := Some(NotConfiguredMessage))
    ensures api.Some? ==> f.request == Some(PaginationRequest(page, s.pagination.pageSize))
    ensures f == FetchWorkers(s, api, Some(page), None, reply)
  {
    FetchWorkers(s, api, Some(page), Some(s.pagination.pageSize), reply)
  }

  /** `changeLimit(n)`: always back to page 1, with the new page size. */
  function ChangeLimit(s: State, api: Option<WorkersApi.Api>, pageSize: int, reply: Result<Paged<Worker>, Thrown>): (f: Fetch)
    ensures api.None? ==> f.request == None && f.state == s.(error := Some(NotConfiguredMessage))
    ensures api.Some? ==> f.request == Some(PaginationRequest(1, pageSize)) && !f.state.loading
    ensures api.Some? && reply.Ok? ==> f.state.workers == reply.value.items && f.state.error == None
    ensures api.Some? && reply.Ok? ==> f.state.pagination == CursorOf(reply.value.pagination)
    ensures api.Some? && reply.Err? ==> f.state.workers == s.workers && f.state.pagination == s.pagination
    ensures api.Some? && reply.Err? ==> f.state.error == Some(ErrorText(reply.error, FetchFallbackMessage))
  {
    FetchWorkers(s, api, Some(1), Some(pageSize), reply)
  }

  /** `refresh()`: the current page again. */
  function Refresh(s: State, api: Option<WorkersApi.Api>, reply: Result<Paged<Worker>, Thrown>): (f: Fetch)
    ensures api.Some? ==> f.request == Some(PaginationRequest(s.pagination.page, s.pagination.pageSize))
    ensures f == FetchWorkers(s, api, None, None, reply)
  {
    FetchWorkers(s, api, None, None, reply)
  }

  /** `clearError()`: only the error goes. */
  function ClearError(s: State): (r: State)
    ensures r.error == None
    ensures r.workers == s.workers && r.loading == s.loading && r.pagination == s.pagination
  {
    s.(error := None)
  }

  /** Clearing the error twice is clearing it once, and a state without an
      error is left as it is. */
  lemma ClearErrorIdempotent(s: State)
    ensures ClearError(ClearError(s)) == ClearError(s)
    ensures s.error == None ==> ClearError(s) == s
  {
  }

  /** Without a usable `apiUrl` no request is made whatever the arguments, and
      the state only gains the configuration error; with one, a request is
      always made. */
  lemma GateDecidesRequest(meta: PluginMeta, s: State, page: Option<int>, pageSize: Option<int>,
                           reply: Result<Paged<Worker>, Thrown>)
    ensures var f := FetchWorkers(s, MakeApi(meta), page, pageSize, reply);
      (f.request.None? <==> !IsConfigured(meta))
      && (!IsConfigured(meta) ==> f.state == s.(error := Some(NotConfiguredMessage)))
  {
  }

  /** For a reply of the `Paged` shape, success replaces the worker list and
      the cursor together from the same response and failure keeps both: no
      such fetch shows one without the other. */
  lemma FetchUpdatesAtomically(s: State, api: WorkersApi.Api, page: Option<int>, pageSize: Option<int>,
                               reply: Result<Paged<Worker>, Thrown>)
    ensures var r := FetchWorkers(s, Some(api), page, pageSize, reply).state;
      (r.workers, r.pagination) == (if reply.Ok? then (reply.value.items, CursorOf(reply.value.pagination))
                                     else (s.workers, s.pagination))
  {
  }

  /** The request a fetch hands to `WorkersAPI.get` reaches the transport as a
      path that reads back to the page and size the hook asked for. */
  lemma FetchRequestPath(s: State, api: WorkersApi.Api, page: Option<int>, pageSize: Option<int>,
                         t: Transport<Paged<Worker>>)
    ensures var f := FetchWorkers(s, Some(api), page, pageSize, WorkersApi.Get(api, PaginationRequest(page.GetOr(s.pagination.page), pageSize.GetOr(s.pagination.pageSize)), t).result);
      f.request.Some?
      && WorkersApi.ParseQueryPath(WorkersApi.Get(api, f.request.value, t).request.path)
         == Some(PaginationRequest(page.GetOr(s.pagination.page), pageSize.GetOr(s.pagination.pageSize)))
  {
  }

  /** End to end: an HTTP 404 on the list request leaves the "endpoint not
      found" message in `error`, a 5xx the server-error message, and any other
      failure the transport's own message. */
  lemma FailureMessages(s: State, api: WorkersApi.Api, model: PaginationRequest, e: Thrown)
    ensures var r := FetchWorkers(s, Some(api), Some(model.page), Some(model.pageSize),
                                  WorkersApi.Get(api, model, Failed(e)).result).state;
      && (StatusOf(e) == Some(404) ==> r.error == Some(NotFoundMessage))
      && (StatusOf(e).Some? && StatusOf(e).value >= 500 ==> r.error == Some(ServerErrorMessage))
      && (e.RequestError? && (e.status.None? || (e.status.value != 404 && e.status.value < 500)) ==> r.error == Some(e.message))
      && (e.NonError? ==> r.error == Some(FetchFallbackMessage))
  {
  }

  /** There is no last-request-wins guard: when two fetches are in flight, the
      reply that arrives last decides the list and the cursor, whichever
      request was issued last, and the first reply to arrive already clears
      `loading` while the other request is still pending. */
  lemma LastArrivalWins(s: State, first: Paged<Worker>, second: Result<Paged<Worker>, Thrown>)
    ensures var bothPending := Begin(Begin(s));
      && !Complete(bothPending, second).loading
      && Complete(Complete(bothPending, second), Ok(first)).workers == first.items
      && Complete(Complete(bothPending, second), Ok(first)).pagination == CursorOf(first.pagination)
  {
  }

  /** From the state on mount, `refresh` asks for page 1 of 10 and a listing
      with two workers and a total of 2 shows exactly them. */
  lemma FirstPageAfterMount(api: WorkersApi.Api, w1: Worker, w2: Worker)
    ensures var response := Paged([w1, w2], PaginationSettings(1, 10, 1, 2, false, false));
      var f := Refresh(Initial(), Some(api), Ok(response));
      f.request == Some(PaginationRequest(1, 10)) && f.state.workers == [w1, w2]
      && f.state.pagination.total == 2 && f.state.error == None && !f.state.loading
  {
  }
}

=== FILE: workers_api.dfy ===
/** `WorkersAPI` (plugin/src/api/workers.ts): the paged worker list request. */
module WorkersApi {
  import opened Wrappers
  import opened Models
  import opened Decimal
  import opened Client

  const Prefix := "/workers"
  const PageParam := "?page="
  const PageSizeParam := "&page_size="

  datatype Api = Api(client: ApiClient)

  /** The requested path: `page` and `page_size` rendered verbatim, `page`
      first; nothing is clamped or validated. */
  function QueryPath(model: PaginationRequest): (path: string)
    ensures |path| > |Prefix| && path[..|Prefix|] == Prefix
  {
    var tail := PageParam + IntToString(model.page) + PageSizeParam + IntToString(model.pageSize);
    assert (Prefix + tail)[..|Prefix|] == Prefix;
    Prefix + tail
  }

  /** `s` without the leading `prefix`, if it starts with it. */
  function StripPrefix(s: string, prefix: string): Option<string> {
    if |s| < |prefix| || s[..|prefix|] != prefix then None else Some(s[|prefix|..])
  }

  lemma StripPrefixOfConcat(prefix: string, t: string)
    ensures StripPrefix(prefix + t, prefix) == Some(t)
  {
  }

  lemma StripPrefixSound(s: string, prefix: string, t: string)
    requires StripPrefix(s, prefix) == Some(t)
    ensures s == prefix + t
  {
    assert s == s[..|prefix|] + s[|prefix|..];
  }

  /** Reads a worker-list path back into the page it asks for. */
  function ParseQueryPath(path: string): Option<PaginationRequest> {
    match StripPrefix(path, Prefix + PageParam)
    case None => None
    case Some(afterHead) =>
      match ParseIntPrefix(afterHead)
      case None => None
      case Some((page, rest)) =>
        match StripPrefix(rest, PageSizeParam)
        case None => None
        case Some(afterMid) =>
          match ParseIntPrefix(afterMid)
          case None => None
          case Some((pageSize, tail)) =>
            if tail == "" then Some(PaginationRequest(page, pageSize)) else None
  }

  /** Round trip: the page and page size can be read back from the path, so
      distinct requests never share a path. */
  lemma QueryPathRoundTrip(model: PaginationRequest)
    ensures ParseQueryPath(QueryPath(model)) == Some(model)
  {
    var pageText := IntToString(model.page);
    var sizeText := IntToString(model.pageSize);
    var rest := PageSizeParam + sizeText;
    assert QueryPath(model) == (Prefix + PageParam) + (pageText + rest);
    StripPrefixOfConcat(Prefix + PageParam, pageText + rest);
    ParseIntPrefixRoundTrip(model.page, rest);
    StripPrefixOfConcat(PageSizeParam, sizeText);
    assert sizeText == sizeText + "";
    ParseIntPrefixRoundTrip(model.pageSize, "");
  }

  /** `WorkersAPI.get(model)`: a GET of the query path whose response page is
      returned as received. */
  function Get(api: Api, model: PaginationRequest, t: Transport<Paged<Worker>>): (call: Call<(), Paged<Worker>>)
    ensures call.request.verb == Client.Get && call.request.body == None
    ensures call.request.baseUrl == api.client.baseUrl
    ensures |call.request.path| > |Prefix| && call.request.path[..|Prefix|] == "/workers"
    ensures ParseQueryPath(call.request.path) == Some(model)
    ensures t.Delivered? ==> call.result == Ok(t.data)
    ensures t.Failed? ==> call.result == Err(Intercept(t.error))
  {
    QueryPathRoundTrip(model);
    GetVerb(api.client, QueryPath(model), t)
  }

  /** Distinct page requests go to distinct paths. */
  lemma QueryPathInjective(a: PaginationRequest, b: PaginationRequest)
    requires QueryPath(a) == QueryPath(b)
    ensures a == b
  {
    QueryPathRoundTrip(a);
    QueryPathRoundTrip(b);
  }

  /** The converse of the round trip: the only paths that read back to a
      request are the one `QueryPath` builds for it, so the builder and the
      parser are inverse bijections and no other spelling of the same page
      (`page=01`, `page=-0`) is accepted. */
  lemma ParseQueryPathSound(path: string, model: PaginationRequest)
    requires ParseQueryPath(path) == Some(model)
    ensures path == QueryPath(model)
  {
    match StripPrefix(path, Prefix + PageParam)
    case Some(afterHead) =>
      StripPrefixSound(path, Prefix + PageParam, afterHead);
      match ParseIntPrefix(afterHead)
      case Some((page, rest)) =>
        ParseIntPrefixSound(afterHead, page, rest);
        match StripPrefix(rest, PageSizeParam)
        case Some(afterMid) =>
          StripPrefixSound(rest, PageSizeParam, afterMid);
          match ParseIntPrefix(afterMid)
          case Some((pageSize, tail)) =>
            ParseIntPrefixSound(afterMid, pageSize, tail);
            AssemblePath(path, afterHead, rest, afterMid, page, pageSize);
  }

  /** The pieces the parser peels off, put back together, are the built path. */
  lemma AssemblePath(path: string, afterHead: string, rest: string, afterMid: string, page: int, pageSize: int)
    requires path == Prefix + PageParam + afterHead
    requires afterHead == IntToString(page) + rest
    requires rest == PageSizeParam + afterMid
    requires afterMid == IntToString(pageSize) + ""
    ensures path == QueryPath(PaginationRequest(page, pageSize))
  {
    var pageText := IntToString(page);
    var sizeText := IntToString(pageSize);
    assert afterMid == sizeText;
    assert afterHead == pageText + (PageSizeParam + sizeText);
    assert path == Prefix + (PageParam + (pageText + (PageSizeParam + sizeText)));
  }
}

=== FILE: wrappers.dfy ===
/** Optional values and results, used wherever the source has `undefined`/`null`
    or a thrown/rejected value. */
module Wrappers {

  /** `None` stands for JavaScript's `undefined`/`null` and Python's `None`. */
  datatype Option<+T> = None | Some(value: T) {

    /** The value, or `default` when absent (a defaulted argument). */
    function GetOr(default: T): T {
      match this
      case Some(v) => v
      case None => default
    }
  }

  /** A settled promise or a Python call: a value, or the thrown error. */
  datatype Result<+T, +E> = Ok(value: T) | Err(error: E)
}
